=== FILE: README.md ===
# Math microservice core, modelled in Dafny

This project models the core of a small math microservice written in Python. The core
has four parts:

- the integer primitives `compute_fibonacci` and `compute_factorial`;
- `summarize_result`, which bounds the decimal text of a possibly huge result before
  it is stored;
- the two task stores: the SQLite `tasks` table and the in-memory status board. The
  background runners write to the board;
- the request history: an in-memory list, and a SQLite `requests` table that the CLI
  `export` command filters and writes out.

State is immutable data: tables are sequences of rows, and the board is two maps. Each
operation is a function from the old state to the new state, or to the exception the
Python code raises. The two loops are methods with loop invariants. Each contract is
checked against an independent definition: recursive Fibonacci and factorial, a parser
that reads a truncation marker back, lookups after updates, a sort proved to return a
permutation, and a filter proved to keep order.

Modules: `Wrappers` (Option, Result), `Decimal` (Python's `str(int)` and its inverse),
`Values` (Python values and their conversion to text), `Ordering` (`ORDER BY … DESC`),
`MathOps`, `Summary`, `TaskStore`, `TaskStatus`, `MemoryStore`, `SqliteStore`,
`BackgroundTasks`, `Export`.

Things the model makes explicit:

- Python raises `ValueError` when it converts an int with more digits than
  `sys.get_int_max_str_digits()` (default 4300; 0 turns the limit off). Every
  conversion takes this limit as the parameter `maxStrDigits`.
- A runner writes its history row before it sets `done`, and that write converts the
  argument dict and the result to text. So an int over the digit limit in either makes
  the runner raise. The task is left `in_progress` with no new result, and it never
  reads `done`. Under the default limit, factorial tasks stall this way from n = 1559
  on, because 1558! has 4300 digits and 1559! has 4303.
  `BackgroundTasks.LargeFactorialRunStalls` proves the stall for every n from 4309 on,
  a bound that follows from n! ≥ 10^(n-9). So does a Fibonacci task for a
  negative n of more than 4300 digits, although its loop returns 0 at once
  (`BackgroundTasks.NegativeFibonacciRunStalls`).
- The pow runner stalls the same way when the float power raises, for example
  `0.0 ** -1.0` or an overflowing power.
- `summarize_result` reports a negative int over the limit as `[int with -1 digits]`.
  This is because `digit_count` falls back to `len(str(n))`, which raises again.
- For negative n the loops run zero times, so Fibonacci gives 0 and factorial gives 1.
  No error is raised.
- Neither task store enforces an order of statuses. Any text is accepted at any time,
  and a finished task can be set back to `queued` while it keeps its result.
- `storage/sqlite_store.py` defines `get_all_requests_sqlite` twice, with the same
  text. The second definition (lines 38-45) is the one in effect, and it is modelled
  once.

## Model

| member | source | states |
|---|---|---|
| MathOps.ComputeFibonacci | services/math_ops.py:8-12 | the loop returns F(n), the recursive Fibonacci number, for n ≥ 0, and 0 for n ≤ 0; the result is never negative and satisfies F(n) = F(n-1) + F(n-2) for n ≥ 2 |
| MathOps.ComputeFactorial | services/math_ops.py:15-19 | the loop returns n! for n ≥ 0 and 1 for negative n; the result is at least 1, and equals n · (n-1)! for n ≥ 1 |
| MathOps.KnownValues | tests/test_math_ops.py:8-16 | fib(0) = 0, fib(1) = 1, fib(10) = 55, 0! = 1, 1! = 1, 5! = 120 |
| MathOps.FactorialLowerBound | services/math_ops.py:17-18 | n! ≥ 10^(n-9) for n ≥ 9, since every factor from 10 on is at least 10 |
| Values.Str | storage/task_store.py:42 | converting an int fails exactly when its magnitude has more digits than a non-zero limit, and the failure is a ValueError; a successful conversion is a minus sign exactly for a negative int, followed by the canonical decimal numeral that reads back as the magnitude, so one character per digit plus one for the sign; a float always converts |
| Values.StrInput | storage/sqlite_store.py:21-27 | converting an argument dict raises ValueError exactly when one of its int values fails to convert on its own; otherwise the text is the dict's rendering |
| Values.RenderIntInputInjective | storage/sqlite_store.py:27 | two one-int argument dicts render to the same stored text only if the ints are equal |
| Decimal.DecimalLengthUnique | storage/task_store.py:36 | the digit count is the only d with 10^(d-1) ≤ n < 10^d, i.e. the value of floor(log10 n) + 1 |
| Decimal.NatDecimalRoundTrip | storage/task_store.py:44 | reading back the decimal text of a count gives the count |
| Summary.DigitCount | storage/task_store.py:34-38 | for n > 0 the count d satisfies 10^(d-1) ≤ n < 10^d; for n ≤ 0 it is -1 exactly when converting n to text raises, and otherwise the length of that text: the magnitude's digits plus one for a minus sign |
| Summary.SummaryOfText | storage/task_store.py:40-45 | a text within the budget is returned unchanged; a longer text becomes its first max_digits characters (a prefix of the text) plus the marker; the summary's length is the budget plus the marker's; the text's true length can be read back from the marker |
| Summary.SummaryOfUnconvertible | storage/task_store.py:46-51 | when conversion fails: a positive int gives `[int with d digits]` with its true digit count d, a non-positive int gives `[int with -1 digits]`, any other value gives `[unrepresentable result]`, and any other exception gives `[error: message]` |
| TaskStatus.FreshBoard | storage/task_status.py:3-4 | on the board as loaded, every id reads unknown and has no result |
| TaskStatus.GetStatus | storage/task_status.py:11-13 | an id that was never set reads `unknown` |
| TaskStatus.GetResult | storage/task_status.py:19-21 | the result is None exactly when none was stored for the id |
| TaskStatus.SetStatus | storage/task_status.py:7-9 | afterwards the id reads the new status, whatever it was before; every other id's status and all results read as before |
| TaskStatus.SetResult | storage/task_status.py:15-17 | afterwards the id reads the stored value; every other id's result and every status read as before |
| TaskStatus.SetStatusLastWriteWins | storage/task_status.py:7-9 | of two status writes to one id, the first leaves no trace |
| TaskStatus.SetStatusCommutes | storage/task_status.py:7-9 | status writes to different ids can be done in either order |
| TaskStatus.StatusAndResultCommute | storage/task_status.py:7-17 | a status write and a result write commute, so the two maps are independent |
| TaskStore.EmptyTableValid | storage/task_store.py:8-19 | a newly created table satisfies the primary key and get_task finds no task in it |
| TaskStore.GetTask | storage/task_store.py:61-69 | None exactly when no row has the id; otherwise the id, status and result of a row with that id |
| TaskStore.GetTaskOfRow | storage/task_store.py:61-69 | while the primary key holds, get_task returns the view of the one row with the id |
| TaskStore.SaveTask | storage/task_store.py:21-26 | an input dict holding an int over the digit limit raises ValueError first; a taken id raises IntegrityError; otherwise exactly one row is appended, earlier rows are kept, the new task reads queued with no result and holds the operation, the input text and the creation time, other ids read as before, and ids stay unique |
| TaskStore.UpdateTaskStatus | storage/task_store.py:28-32 | an unknown id leaves the table unchanged; otherwise the rows stay in place and the row with the id differs only in its status, now the given one whatever it was; every other row is unchanged; ids stay unique |
| TaskStore.UpdateTaskResult | storage/task_store.py:53-58 | an unknown id leaves the table unchanged; otherwise the rows stay in place and the row with the id differs only in reading done with the summary (default budget) as its result; every other row is unchanged; ids stay unique |
| TaskStore.GetAllTasks | storage/task_store.py:71-86 | one listing per row, exactly the rows' listings, ordered by non-increasing creation time |
| TaskStore.TaskLifecycle | storage/task_store.py:21-58 | save, then status in_progress, then result: the task reads queued, then in_progress, then done with the summarised result |
| TaskStore.StatusOrderNotEnforced | storage/task_store.py:28-32 | a done task can be set back to queued, and it keeps its result |
| MemoryStore.StoreRequest | storage/memory_store.py:6-11 | exactly one record is added at the end, holding the operation, input and result as given; earlier records are unchanged |
| MemoryStore.StoreAllAppends | storage/memory_store.py:6-15 | after k stores, get_all_requests returns the earlier records followed by the k new ones in the order stored, so the length grew by exactly k |
| MemoryStore.StoredFromStart | storage/memory_store.py:3-15 | from the module's load on, get_all_requests returns exactly the records stored, in the order stored |
| SqliteStore.StoreRequestSqlite | storage/sqlite_store.py:20-27 | raises exactly when the argument dict or the result cannot be converted to text, with the dict's ValueError first, and then inserts nothing; otherwise exactly one row is appended with an id above every earlier id, the operation, the input dict's text, the result's text and the current time; earlier rows are unchanged |
| SqliteStore.GetAllRequestsSqlite | storage/sqlite_store.py:38-45 | every row, each as often as stored, with non-increasing timestamps |
| SqliteStore.HistoryFromCreation | storage/sqlite_store.py:8-27 | from the table's creation on, over any run of stores, the ids stay positive, increasing and within the counter, with at most one row per call |
| SqliteStore.TableOnlyGrows | storage/sqlite_store.py:20-45 | over any run of stores, earlier rows stay in place, at most one row is added per call, the id counter never decreases, and the ids stay increasing |
| BackgroundTasks.RunTask | services/background_tasks.py:5-24 | the runner writes in_progress, then one history row (present from the second state on) holding the operation, the input text and the result text, then the raw result, then done; it touches no other id; if the primitive raises, or the argument dict or the result cannot be converted, it raises that exception after the first write, leaving the task in_progress, with no new result and no new row |
| BackgroundTasks.ObservedStatuses | services/background_tasks.py:6-10 | a reader sees the statuses in_progress then done, or only in_progress if the run raised; done is never seen without the result |
| BackgroundTasks.FibonacciRunFinishes | services/background_tasks.py:5-10 | when the argument and the result fit the digit limit, the task ends done with the exact Fibonacci number as its raw result, and one history row `fibonacci`, `{'n': n}` and the number's decimal text |
| BackgroundTasks.FactorialRunFinishes | services/background_tasks.py:12-17 | the same for factorial: done, the exact factorial as raw result, one history row `factorial`, `{'n': n}` and its decimal text |
| BackgroundTasks.ArgumentOverLimitStalls | services/background_tasks.py:5-17 | an n over the digit limit makes either runner raise ValueError while writing history, whatever it computed; the task stays in_progress with its previous result and the history unchanged |
| BackgroundTasks.NegativeFibonacciRunStalls | services/background_tasks.py:5-8 | a Fibonacci task for n ≤ -10^4300 computes 0 yet stalls in_progress under the default limit |
| BackgroundTasks.LargeFactorialRunStalls | services/background_tasks.py:13-15 | under the default 4300-digit limit, every factorial task from n = 4309 raises while writing history; it stays in_progress with its previous result and the history unchanged (the actual threshold, n = 1559, is lower than this proved bound) |
| BackgroundTasks.PowRunFinishes | services/background_tasks.py:19-24 | a pow task with a float result ends done with that value, and records `pow` with input `{'base': a, 'exponent': b}` |
| BackgroundTasks.PowErrorStalls | services/background_tasks.py:19-21 | when the float power raises, the task stays in_progress with its previous result, no history row, and the run ends with that exception |
| Export.FilterByOperation | cli/commands/export_cmd.py:17 | a record is kept exactly when it is in the input and has the chosen operation; the kept records are a subsequence of the input |
| Export.FilterAppend | cli/commands/export_cmd.py:17 | filtering a concatenation gives the concatenation of the filtered parts, so relative order is preserved |
| Export.FilterKeepsSorted | cli/commands/export_cmd.py:16-17 | the filtered records are still newest first |
| Export.RunExport | cli/commands/export_cmd.py:6-25 | an operation outside the four choices is refused; otherwise the header is `id, operation, input_data, result, timestamp`; the path is the given output, or `history_export_<operation>_<stamp>.csv`; `all` writes exactly the retrieved records in the same order; any other operation writes exactly the history rows of that operation; the records are a subsequence of the retrieved ones and newest first |
| Export.ReportedCountIsWritten | cli/commands/export_cmd.py:22-25 | the count read back from the report message is the number of records written after the header |

## Left out

- `compute_pow` (float exponentiation) is not modelled. The pow runner takes it as a function parameter that returns a value or the exception it raises. Floats are opaque values known only by their text.
- The `lru_cache` memoisation of `compute_fibonacci` and `compute_factorial` only affects speed, not results. The cache of `compute_pow` is untyped, so an int call and a float call with equal arguments share one entry. For example, `compute_pow(2.0, 3.0)` returns the int `8` once `compute_pow(2, 3)` has run. The type and text of a pow result can therefore depend on earlier calls. The free `pow` parameter covers this, since it may return any value.
- Summary.DigitCount: takes `int(log10(n)) + 1` at its exact value. The source only calls it for ints over the digit limit, where `math.log10` works from the float mantissa and exponent. With that rounding the count can be off by one in either direction near a power of ten. Floating point is not modelled.
- The limit on int-to-text conversion is not applied to the length and count numbers in messages. Those numbers are far below CPython's smallest allowed limit of 640 digits.
- The running time of the loops is not modelled. A positive n of more than 4300 digits would never finish its loop, while the model reports the ValueError that converting it would raise.
- Dict keys are rendered as `'key'` without escaping. The keys in the source are plain identifiers.
- `init_db`, `init_task_db`, SQLite connections, file paths and `DB_FILE` are left out. The tables are assumed to exist.
- Timestamps (`datetime.utcnow().isoformat()`, `CURRENT_TIMESTAMP`, the export's `strftime` stamp) are parameters. Row timestamps are integers whose order matches the text the database sorts.
- The diagnostic `print` calls in `store_request_sqlite` are left out as output. Their conversions of the argument dict and of the result are modelled, the dict's first, because either can raise. For the values that reach it, `repr` and `str` give the same text. These are the ints of the Fibonacci and factorial runners and the floats of the pow runner. They also include the complex number `compute_pow` returns for a negative base with a fractional exponent, and an int it returns after such a cache hit. The model holds a complex as an `ObjectV` and an int as an `IntV`.
- The CSV encoding, opening the output file and `click.secho` colouring are left out. The export is modelled as its header, its records and its message.
- `get_all_requests` returns the live list object itself. The model returns the list's value, so later mutation through that alias is not modelled.
- The `threading.Lock` in storage/task_status.py is not modelled. Operations are applied one at a time.
- Whatever calls a runner is not part of the source shown. An exception the runner raises is recorded in the run and leaves the runner; no code here catches it.
- services/auth.py (environment variables, signed cookies), main.py, api/routes.py, cli.py and cli/ wiring are left out. cli.py:56-59 repeats the export filter modelled here.
- The Pydantic schemas in models/ are left out. Their only rule is n ≥ 0, enforced at the HTTP boundary. setup.py is packaging.
- No dispatcher threshold between synchronous and background execution appears in the source, so none is modelled.
- The runners write the status board while `status` reads the `tasks` table. Nothing shown calls `save_task` or `update_task_result`. The two stores are kept separate.

=== FILE: background_tasks.dfy ===
/**
  The runners of services/background_tasks.py. Each one marks its task in progress,
  computes, records the request in the SQLite history, stores the raw result on the
  status board and marks the task done. A runner is a function from the state before
  it to the states after each of its writes; an exception ends the run early and
  leaves the runner, and no code here catches it.
 */
module BackgroundTasks {
  import opened Wrappers
  import opened Values
  import Decimal
  import MathOps
  import TaskStatus
  import SqliteStore

  const InProgress := "in_progress"
  const Done := "done"

  /** Everything a runner writes to: the status board and the request history. */
  datatype RunnerState = RunnerState(board: TaskStatus.StatusBoard, history: SqliteStore.HistoryTable)

  /** The state after each write the runner made, in order, and the exception it ended with. */
  datatype Run = Run(states: seq<RunnerState>, raised: Option<PyError>)

  function Final(r: Run): RunnerState
    requires |r.states| > 0
  {
    r.states[|r.states| - 1]
  }

  /** The statuses a reader of the board sees for `taskId` after each write. */
  function StatusTrace(r: Run, taskId: string): (trace: seq<string>)
    ensures |trace| == |r.states|
  {
    seq(|r.states|, k requires 0 <= k < |r.states| => TaskStatus.GetStatus(r.states[k].board, taskId))
  }

  /** A trace with consecutive repeats merged: the distinct statuses in the order they appear. */
  function Collapse(trace: seq<string>): seq<string>
    decreases |trace|
  {
    if |trace| <= 1 then trace
    else if trace[0] == trace[1] then Collapse(trace[1..])
    else [trace[0]] + Collapse(trace[1..])
  }

  /**
    The body shared by the three runners, for a task id, the operation's name, its
    argument dict and what the math primitive did: returned a value or raised.

    It writes `in_progress`, then one history row, then the raw result, then `done`,
    touching no other task. When the primitive raises, or the history write raises
    because the argument dict or the result cannot be converted to text, the run stops
    after the first write: the task is left `in_progress` with no new result and no row.
   */
  function RunTask(st: RunnerState, taskId: string, operation: string, input: InputData,
                   computed: Result<Value, PyError>, now: int, maxStrDigits: nat): (r: Run)
    ensures computed.Err? ==> r.raised == Some(computed.error)
    ensures computed.Ok? && InputExceedsStrLimit(input, maxStrDigits) ==> r.raised == Some(ValueError)
    ensures computed.Ok? && !InputExceedsStrLimit(input, maxStrDigits) ==>
      && (r.raised.None? <==> Str(computed.value, maxStrDigits).Ok?)
      && (r.raised.Some? ==> r.raised.value == Str(computed.value, maxStrDigits).error)
    ensures |r.states| == if r.raised.None? then 4 else 1
    ensures forall k :: 0 <= k < |r.states| ==>
      TaskStatus.GetStatus(r.states[k].board, taskId) == if k == 3 then Done else InProgress
    ensures forall k :: 0 <= k < |r.states| ==>
      if k >= 2 then computed.Ok? && TaskStatus.GetResult(r.states[k].board, taskId) == Some(computed.value)
      else TaskStatus.GetResult(r.states[k].board, taskId) == TaskStatus.GetResult(st.board, taskId)
    ensures forall k, other :: 0 <= k < |r.states| && other != taskId ==>
      && TaskStatus.GetStatus(r.states[k].board, other) == TaskStatus.GetStatus(st.board, other)
      && TaskStatus.GetResult(r.states[k].board, other) == TaskStatus.GetResult(st.board, other)
    ensures r.states[0].history == st.history
    ensures r.raised.Some? ==> Final(r).history == st.history
    ensures r.raised.None? ==> r.states[1].history == r.states[2].history == Final(r).history
    ensures r.raised.None? ==>
      && computed.Ok?
      && |Final(r).history.rows| == |st.history.rows| + 1
      && Final(r).history.rows[..|st.history.rows|] == st.history.rows
      && Final(r).history.rows[|st.history.rows|].operation == operation
      && Final(r).history.rows[|st.history.rows|].inputData == RenderInput(input)
      && Str(computed.value, maxStrDigits) == Ok(Final(r).history.rows[|st.history.rows|].result)
  {
    var s1 := st.(board := TaskStatus.SetStatus(st.board, taskId, InProgress));
    match computed
    case Err(e) => Run([s1], Some(e))
    case Ok(result) => Record(s1, taskId, operation, input, result, now, maxStrDigits)
  }

  /**
    The runner after `in_progress` is on the board (`s1`): the history write, then the
    raw result, then `done`; a history write that raises ends the run at `s1`.
   */
  function Record(s1: RunnerState, taskId: string, operation: string, input: InputData, result: Value,
                  now: int, maxStrDigits: nat): (r: Run)
    ensures var w := SqliteStore.StoreRequestSqlite(s1.history, operation, input, result, now, maxStrDigits);
      && (r.raised.None? <==> w.Ok?)
      && (r.raised.Some? ==> r.raised.value == w.error)
    ensures |r.states| == if r.raised.None? then 4 else 1
    ensures r.raised.None? ==>
      r.states[1].history == r.states[2].history == Final(r).history
        == SqliteStore.StoreRequestSqlite(s1.history, operation, input, result, now, maxStrDigits).value
    ensures r.states[0] == s1
    ensures forall k :: 1 <= k < |r.states| ==>
      && TaskStatus.GetStatus(r.states[k].board, taskId) == (if k == 3 then Done else TaskStatus.GetStatus(s1.board, taskId))
      && TaskStatus.GetResult(r.states[k].board, taskId) == (if k >= 2 then Some(result) else TaskStatus.GetResult(s1.board, taskId))
    ensures forall k, other :: 1 <= k < |r.states| && other != taskId ==>
      && TaskStatus.GetStatus(r.states[k].board, other) == TaskStatus.GetStatus(s1.board, other)
      && TaskStatus.GetResult(r.states[k].board, other) == TaskStatus.GetResult(s1.board, other)
  {
    match SqliteStore.StoreRequestSqlite(s1.history, operation, input, result, now, maxStrDigits)
    case Err(e) => Run([s1], Some(e))
    case Ok(h) =>
      var s2 := s1.(history := h);
      var s3 := s2.(board := TaskStatus.SetResult(s2.board, taskId, result));
      var s4 := s3.(board := TaskStatus.SetStatus(s3.board, taskId, Done));
      Run([s1, s2, s3, s4], None)
  }

  /**
    The result is on the board before the status says `done`, so a reader sees
    `in_progress` and then `done`, never `done` without the result; a run that raised
    is seen `in_progress` for good.
   */
  lemma ObservedStatuses(st: RunnerState, taskId: string, operation: string, input: InputData,
                         computed: Result<Value, PyError>, now: int, maxStrDigits: nat)
    ensures var r := RunTask(st, taskId, operation, input, computed, now, maxStrDigits);
      && Collapse(StatusTrace(r, taskId)) == (if r.raised.None? then [InProgress, Done] else [InProgress])
      && forall k :: 0 <= k < |r.states| && TaskStatus.GetStatus(r.states[k].board, taskId) == Done ==>
           computed.Ok? && TaskStatus.GetResult(r.states[k].board, taskId) == Some(computed.value)
  {
    var r := RunTask(st, taskId, operation, input, computed, now, maxStrDigits);
    var trace := StatusTrace(r, taskId);
    if r.raised.None? {
      assert trace == [InProgress, InProgress, InProgress, Done];
      assert Collapse(trace[2..]) == [InProgress, Done];
    } else {
      assert trace == [InProgress];
    }
  }

  /** The argument dict `{"n": n}` of the Fibonacci and factorial runners. */
  function NInput(n: int): InputData {
    [("n", IntArg(n))]
  }

  /** The argument dict `{"base": a, "exponent": b}` of the pow runner. */
  function PowInput(base: Float, exponent: Float): InputData {
    [("base", FloatArg(base)), ("exponent", FloatArg(exponent))]
  }

  /** `store_and_compute_fibonacci(n, task_id)`. */
  function StoreAndComputeFibonacci(st: RunnerState, n: int, taskId: string, now: int, maxStrDigits: nat): Run {
    RunTask(st, taskId, "fibonacci", NInput(n), Ok(IntV(MathOps.PyFibonacci(n))), now, maxStrDigits)
  }

  /** `store_and_compute_factorial(n, task_id)`. */
  function StoreAndComputeFactorial(st: RunnerState, n: int, taskId: string, now: int, maxStrDigits: nat): Run {
    RunTask(st, taskId, "factorial", NInput(n), Ok(IntV(MathOps.PyFactorial(n))), now, maxStrDigits)
  }

  /**
    `store_and_compute_pow(a, b, task_id)`; `pow` stands for the float power `compute_pow`,
    which returns a value or raises (`0.0 ** -1.0`, an overflowing power).
   */
  function StoreAndComputePow(st: RunnerState, base: Float, exponent: Float, taskId: string,
                              pow: (Float, Float) -> Result<Value, PyError>, now: int, maxStrDigits: nat): Run {
    RunTask(st, taskId, "pow", PowInput(base, exponent), pow(base, exponent), now, maxStrDigits)
  }

  /**
    The run raised `e` right after marking the task in progress: the task reads
    `in_progress` for good, its previous result is kept and no history row was written.
   */
  predicate StalledWith(r: Run, st: RunnerState, taskId: string, e: PyError) {
    && r.raised == Some(e)
    && |r.states| == 1
    && TaskStatus.GetStatus(Final(r).board, taskId) == InProgress
    && TaskStatus.GetResult(Final(r).board, taskId) == TaskStatus.GetResult(st.board, taskId)
    && Final(r).history == st.history
  }

  /** The argument dict `{"n": n}` converts exactly when `n` itself does. */
  lemma NInputExceeds(n: int, maxStrDigits: nat)
    ensures InputExceedsStrLimit(NInput(n), maxStrDigits) <==> ExceedsStrLimit(n, maxStrDigits)
  {
    if ExceedsStrLimit(n, maxStrDigits) {
      assert NInput(n)[0].1 == IntArg(n);
    }
  }

  /**
    A Fibonacci task whose argument and result both fit the digit limit ends `done` with
    the exact Fibonacci number as its raw result, and one history row of operation
    `fibonacci`, input `{'n': n}` and the number's decimal text.
   */
  lemma FibonacciRunFinishes(st: RunnerState, n: int, taskId: string, now: int, maxStrDigits: nat)
    requires !ExceedsStrLimit(n, maxStrDigits)
    requires !ExceedsStrLimit(MathOps.PyFibonacci(n), maxStrDigits)
    ensures var r := StoreAndComputeFibonacci(st, n, taskId, now, maxStrDigits);
      var h := st.history.rows;
      && r.raised.None? && |r.states| == 4
      && TaskStatus.GetStatus(Final(r).board, taskId) == Done
      && TaskStatus.GetResult(Final(r).board, taskId) == Some(IntV(MathOps.PyFibonacci(n)))
      && |Final(r).history.rows| == |h| + 1
      && Final(r).history.rows[|h|].operation == "fibonacci"
      && Final(r).history.rows[|h|].inputData == "{'n': " + Decimal.IntToDecimal(n) + "}"
      && Final(r).history.rows[|h|].result == Decimal.NatToDecimal(MathOps.PyFibonacci(n))
  {
    NInputExceeds(n, maxStrDigits);
  }

  /** The same for a factorial task whose argument and result fit the digit limit. */
  lemma FactorialRunFinishes(st: RunnerState, n: int, taskId: string, now: int, maxStrDigits: nat)
    requires !ExceedsStrLimit(n, maxStrDigits)
    requires !ExceedsStrLimit(MathOps.PyFactorial(n), maxStrDigits)
    ensures var r := StoreAndComputeFactorial(st, n, taskId, now, maxStrDigits);
      var h := st.history.rows;
      && r.raised.None? && |r.states| == 4
      && TaskStatus.GetStatus(Final(r).board, taskId) == Done
      && TaskStatus.GetResult(Final(r).board, taskId) == Some(IntV(MathOps.PyFactorial(n)))
      && |Final(r).history.rows| == |h| + 1
      && Final(r).history.rows[|h|].operation == "factorial"
      && Final(r).history.rows[|h|].inputData == "{'n': " + Decimal.IntToDecimal(n) + "}"
      && Final(r).history.rows[|h|].result == Decimal.NatToDecimal(MathOps.PyFactorial(n))
  {
    NInputExceeds(n, maxStrDigits);
  }

  /**
    An argument over the digit limit stalls either runner, whatever it computed: the
    history write converts `{"n": n}` first and raises, so the task stays `in_progress`
    with no new result and the history is unchanged.
   */
  lemma ArgumentOverLimitStalls(st: RunnerState, n: int, taskId: string, now: int, maxStrDigits: nat)
    requires ExceedsStrLimit(n, maxStrDigits)
    ensures StalledWith(StoreAndComputeFibonacci(st, n, taskId, now, maxStrDigits), st, taskId, ValueError)
    ensures StalledWith(StoreAndComputeFactorial(st, n, taskId, now, maxStrDigits), st, taskId, ValueError)
  {
    NInputExceeds(n, maxStrDigits);
  }

  /**
    A Fibonacci task for a negative n of more than 4300 digits stalls under the default
    limit, although `compute_fibonacci` returns 0 for it at once.
   */
  lemma NegativeFibonacciRunStalls(st: RunnerState, n: int, taskId: string, now: int)
    requires n <= -(Decimal.Pow10(DefaultMaxStrDigits) as int)
    ensures MathOps.PyFibonacci(n) == 0
    ensures StalledWith(StoreAndComputeFibonacci(st, n, taskId, now, DefaultMaxStrDigits), st, taskId, ValueError)
  {
    Decimal.DecimalLengthBounds(Abs(n));
    var l := Decimal.DecimalLength(Abs(n));
    if l <= DefaultMaxStrDigits {
      Decimal.Pow10Monotonic(l, DefaultMaxStrDigits);
      assert false;
    }
    ArgumentOverLimitStalls(st, n, taskId, now, DefaultMaxStrDigits);
  }

  /**
    Under the interpreter's default limit of 4300 digits, any factorial task from
    n = 4309 on raises while writing its history row: the task stays `in_progress`
    with no new result, and the history is unchanged.
   */
  lemma LargeFactorialRunStalls(st: RunnerState, n: int, taskId: string, now: int)
    requires n >= 4309
    ensures StalledWith(StoreAndComputeFactorial(st, n, taskId, now, DefaultMaxStrDigits), st, taskId, ValueError)
  {
    var f := MathOps.Fact(n);
    MathOps.FactorialLowerBound(n);
    Decimal.Pow10Monotonic(4300, n - 9);
    Decimal.DecimalLengthBounds(f);
    var l := Decimal.DecimalLength(f);
    if l <= 4300 {
      Decimal.Pow10Monotonic(l, 4300);
      assert false;
    }
    assert ExceedsStrLimit(MathOps.PyFactorial(n), DefaultMaxStrDigits);
    NInputExceeds(n, DefaultMaxStrDigits);
  }

  /** A pow task records its arguments as `{'base': a, 'exponent': b}` and ends `done` with `pow(a, b)`. */
  lemma PowRunFinishes(st: RunnerState, base: Float, exponent: Float, taskId: string,
                       pow: (Float, Float) -> Result<Value, PyError>, now: int, maxStrDigits: nat)
    requires pow(base, exponent).Ok? && pow(base, exponent).value.FloatV?
    ensures var r := StoreAndComputePow(st, base, exponent, taskId, pow, now, maxStrDigits);
      var h := st.history.rows;
      && r.raised.None?
      && TaskStatus.GetStatus(Final(r).board, taskId) == Done
      && TaskStatus.GetResult(Final(r).board, taskId) == Some(pow(base, exponent).value)
      && Final(r).history.rows[|h|].operation == "pow"
      && Final(r).history.rows[|h|].inputData
        == "{'base': " + base.text + ", 'exponent': " + exponent.text + "}"
  {
    var v := pow(base, exponent).value;
    assert Str(v, maxStrDigits).Ok?;
    assert !InputExceedsStrLimit(PowInput(base, exponent), maxStrDigits);
    PowInputText(base, exponent);
  }

  /**
    When the float power raises, the pow task stops right after it was marked in
    progress: it stays `in_progress` with no new result and no history row.
   */
  lemma PowErrorStalls(st: RunnerState, base: Float, exponent: Float, taskId: string,
                       pow: (Float, Float) -> Result<Value, PyError>, now: int, maxStrDigits: nat)
    requires pow(base, exponent).Err?
    ensures StalledWith(StoreAndComputePow(st, base, exponent, taskId, pow, now, maxStrDigits),
                        st, taskId, pow(base, exponent).error)
  {
  }

  lemma PowInputText(base: Float, exponent: Float)
    ensures RenderInput(PowInput(base, exponent)) == "{'base': " + base.text + ", 'exponent': " + exponent.text + "}"
  {
    var d := PowInput(base, exponent);
    var tail := d[1..];
    assert tail == [("exponent", FloatArg(exponent))];
    var b := "'base': " + base.text;
    var e := "'exponent': " + exponent.text;
    assert ReprEntry(d[0]) == b;
    assert ReprEntries(tail) == ReprEntry(tail[0]) == e;
    assert ReprEntries(d) == b + ", " + e;
  }
}

=== FILE: decimal.dfy ===
/**
  Decimal rendering of integers, as Python's `str(int)` produces it (without the
  digit limit, which the Values module adds), and its inverse.
 */
module Decimal {

  predicate IsDigit(c: char) {
    '0' <= c <= '9'
  }

  predicate AllDigits(s: string) {
    forall i :: 0 <= i < |s| ==> IsDigit(s[i])
  }

  /** A decimal numeral as `str` writes one: digits only, no leading zero except in "0". */
  predicate Canonical(s: string) {
    && |s| > 0
    && AllDigits(s)
    && (s[0] == '0' ==> |s| == 1)
  }

  function DigitChar(d: nat): (c: char)
    requires d < 10
    ensures IsDigit(c)
  {
    ('0' as int + d) as char
  }

  function DigitValue(c: char): (d: nat)
    requires IsDigit(c)
    ensures d < 10
  {
    c as int - '0' as int
  }

  function Pow10(k: nat): (r: nat)
    ensures r >= 1
  {
    if k == 0 then 1 else 10 * Pow10(k - 1)
  }

  /** The number of decimal digits of `n`; zero is written with one digit. */
  function DecimalLength(n: nat): (r: nat)
    ensures r >= 1
  {
    if n < 10 then 1 else 1 + DecimalLength(n / 10)
  }

  /** `str(n)` for a non-negative integer. */
  function NatToDecimal(n: nat): (s: string)
    ensures |s| == DecimalLength(n)
    ensures Canonical(s)
  {
    if n < 10 then [DigitChar(n)]
    else
      var s := NatToDecimal(n / 10) + [DigitChar(n % 10)];
      assert s[0] == NatToDecimal(n / 10)[0];
      s
  }

  /** `str(i)` for any integer: a minus sign before the digits of the magnitude. */
  function IntToDecimal(i: int): (s: string)
    ensures |s| > 0
  {
    if i < 0 then "-" + NatToDecimal(-i) else NatToDecimal(i)
  }

  /** `int(s)` for a string of digits (leading zeros allowed, "" read as 0). */
  function DecimalToNat(s: string): (n: nat)
    requires AllDigits(s)
  {
    if s == [] then 0
    else 10 * DecimalToNat(s[..|s| - 1]) + DigitValue(s[|s| - 1])
  }

  lemma {:induction false} Pow10Monotonic(j: nat, k: nat)
    requires j <= k
    ensures Pow10(j) <= Pow10(k)
  {
    if j < k {
      Pow10Monotonic(j, k - 1);
    }
  }

  /** `DecimalLength(n)` is the `d` with 10^(d-1) <= n < 10^d, i.e. floor(log10 n) + 1. */
  lemma {:induction false} DecimalLengthBounds(n: nat)
    ensures n < Pow10(DecimalLength(n))
    ensures n >= 1 ==> Pow10(DecimalLength(n) - 1) <= n
  {
    if n >= 10 {
      DecimalLengthBounds(n / 10);
      var d := DecimalLength(n / 10);
      assert n / 10 < Pow10(d);
      assert n / 10 + 1 <= Pow10(d);
      assert n < 10 * (n / 10 + 1);
      assert Pow10(d - 1) <= n / 10;
      assert 10 * Pow10(d - 1) <= 10 * (n / 10) <= n;
    }
  }

  /** The bounds characterise the length: no other digit count fits `n`. */
  lemma DecimalLengthUnique(n: nat, d: nat)
    requires d >= 1 && Pow10(d - 1) <= n < Pow10(d)
    ensures d == DecimalLength(n)
  {
    var l := DecimalLength(n);
    DecimalLengthBounds(n);
    if d < l {
      Pow10Monotonic(d, l - 1);
      assert false;
    } else if d > l {
      Pow10Monotonic(l, d - 1);
      assert false;
    }
  }

  /** Reading back what `str` wrote gives the number again. */
  lemma {:induction false} NatDecimalRoundTrip(n: nat)
    ensures DecimalToNat(NatToDecimal(n)) == n
  {
    var s := NatToDecimal(n);
    if n < 10 {
      assert s[..|s| - 1] == [];
    } else {
      NatDecimalRoundTrip(n / 10);
      assert s[..|s| - 1] == NatToDecimal(n / 10);
      assert DigitValue(s[|s| - 1]) == n % 10;
    }
  }

  /** Writing what was read from a canonical numeral gives the numeral again. */
  lemma {:induction false} DecimalNatRoundTrip(s: string)
    requires Canonical(s)
    ensures NatToDecimal(DecimalToNat(s)) == s
    decreases |s|
  {
    if |s| == 1 {
      assert s[..0] == [];
    } else {
      var p := s[..|s| - 1];
      assert p[0] == s[0];
      DecimalNatRoundTrip(p);
      var n := DecimalToNat(s);
      var m := DecimalToNat(p);
      assert m != 0;
      assert n / 10 == m && n % 10 == DigitValue(s[|s| - 1]);
      assert DigitChar(n % 10) == s[|s| - 1];
      assert s == p + [s[|s| - 1]];
    }
  }

  lemma NatToDecimalInjective(a: nat, b: nat)
    requires NatToDecimal(a) == NatToDecimal(b)
    ensures a == b
  {
    NatDecimalRoundTrip(a);
    NatDecimalRoundTrip(b);
  }

  /** Different integers never print alike, so a stored rendering identifies its integer. */
  lemma IntToDecimalInjective(a: int, b: int)
    requires IntToDecimal(a) == IntToDecimal(b)
    ensures a == b
  {
    var s := IntToDecimal(a);
    if a < 0 && b < 0 {
      assert NatToDecimal(-a) == s[1..] == NatToDecimal(-b);
      NatToDecimalInjective(-a, -b);
    } else if a >= 0 && b >= 0 {
      NatToDecimalInjective(a, b);
    }
  }
}

=== FILE: export_cmd.dfy ===
/**
  The `export` command of cli/commands/export_cmd.py: which history rows it writes,
  under which header, to which file, and the count it reports. Opening the file, the
  CSV encoding and the coloured console output are left out.
 */
module Export {
  import opened Wrappers
  import Decimal
  import Ordering
  import SqliteStore

  /** The values `--operation` accepts; anything else is refused before the command runs. */
  const Choices: seq<string> := ["pow", "fibonacci", "factorial", "all"]

  const AllOperations := "all"

  const Header: seq<string> := ["id", "operation", "input_data", "result", "timestamp"]

  const ReportOpen := "Exported "

  /** The option parser's refusal of a value outside the choices. */
  datatype UsageError = InvalidChoice(value: string)

  /** What the command produces: the file it writes (header row, then one row per record) and its report. */
  datatype CsvExport = CsvExport(
    path: string,
    header: seq<string>,
    records: seq<SqliteStore.HistoryRow>,
    message: string)

  /** `a` is `b` with some elements left out, the rest in their original order. */
  predicate IsSubsequence<T(==)>(a: seq<T>, b: seq<T>)
    decreases |b|
  {
    if a == [] then true
    else if b == [] then false
    else if a[0] == b[0] then IsSubsequence(a[1..], b[1..])
    else IsSubsequence(a, b[1..])
  }

  /** `[r for r in all_records if r[1] == operation]`. */
  function FilterByOperation(records: seq<SqliteStore.HistoryRow>, operation: string)
    : (r: seq<SqliteStore.HistoryRow>)
    ensures forall x :: x in r <==> x in records && x.operation == operation
    ensures IsSubsequence(r, records)
    decreases |records|
  {
    if records == [] then []
    else
      var rest := FilterByOperation(records[1..], operation);
      assert forall x :: x in records <==> x == records[0] || x in records[1..];
      if records[0].operation == operation then [records[0]] + rest
      else
        assert rest != [] ==> rest[0] != records[0];
        rest
  }

  /** Filtering distributes over concatenation, so it keeps the relative order of the records. */
  lemma {:induction false} FilterAppend(a: seq<SqliteStore.HistoryRow>, b: seq<SqliteStore.HistoryRow>, operation: string)
    ensures FilterByOperation(a + b, operation) == FilterByOperation(a, operation) + FilterByOperation(b, operation)
    decreases |a|
  {
    if a == [] {
      assert a + b == b;
    } else {
      assert (a + b)[0] == a[0] && (a + b)[1..] == a[1..] + b;
      FilterAppend(a[1..], b, operation);
    }
  }

  /** A newest-first list stays newest first when rows are left out of it. */
  lemma {:induction false} FilterKeepsSorted(records: seq<SqliteStore.HistoryRow>, operation: string)
    requires Ordering.SortedDesc(records, SqliteStore.Timestamp)
    ensures Ordering.SortedDesc(FilterByOperation(records, operation), SqliteStore.Timestamp)
    decreases |records|
  {
    if records != [] {
      var tail := records[1..];
      assert Ordering.SortedDesc(tail, SqliteStore.Timestamp) by {
        forall i, j | 0 <= i < j < |tail| ensures tail[i].timestamp >= tail[j].timestamp {
          assert tail[i] == records[i + 1] && tail[j] == records[j + 1];
        }
      }
      FilterKeepsSorted(tail, operation);
      var rest := FilterByOperation(tail, operation);
      forall x | x in rest ensures records[0].timestamp >= x.timestamp {
        var k :| 0 <= k < |tail| && tail[k] == x;
        assert records[k + 1] == x;
      }
    }
  }

  /** The rows the command writes: all of them for `all`, otherwise those of the chosen operation. */
  function SelectRecords(all: seq<SqliteStore.HistoryRow>, operation: string): seq<SqliteStore.HistoryRow> {
    if operation != AllOperations then FilterByOperation(all, operation) else all
  }

  /** The file name used when `--output` is not given; `stamp` is the local time as `%Y%m%d_%H%M%S`. */
  function DefaultFileName(operation: string, stamp: string): string {
    "history_export_" + operation + "_" + stamp + ".csv"
  }

  function Report(count: nat, path: string): string {
    ReportOpen + Decimal.NatToDecimal(count) + " records to '" + path + "'."
  }

  /** `export --operation operation [--output path]`, reading the history table `history`. */
  function RunExport(operation: string, output: Option<string>, stamp: string, history: SqliteStore.HistoryTable)
    : (r: Result<CsvExport, UsageError>)
    ensures r.Err? <==> operation !in Choices
    ensures r.Ok? ==> r.value.header == Header
    ensures r.Ok? ==> r.value.path == output.GetOr(DefaultFileName(operation, stamp))
    ensures r.Ok? && operation == AllOperations ==>
      r.value.records == SqliteStore.GetAllRequestsSqlite(history)
    ensures r.Ok? && operation != AllOperations ==>
      forall x :: x in r.value.records <==> x in history.rows && x.operation == operation
    ensures r.Ok? ==> IsSubsequence(r.value.records, SqliteStore.GetAllRequestsSqlite(history))
    ensures r.Ok? ==> Ordering.SortedDesc(r.value.records, SqliteStore.Timestamp)
  {
    if operation !in Choices then Err(InvalidChoice(operation))
    else
      var path := output.GetOr(DefaultFileName(operation, stamp));
      var all := SqliteStore.GetAllRequestsSqlite(history);
      var records := SelectRecords(all, operation);
      FilterKeepsSorted(all, operation);
      SubsequenceOfSelf(all);
      Ok(CsvExport(path, Header, records, Report(|records|, path)))
  }

  lemma {:induction false} SubsequenceOfSelf<T>(s: seq<T>)
    ensures IsSubsequence(s, s)
    decreases |s|
  {
    if s != [] {
      SubsequenceOfSelf(s[1..]);
    }
  }

  /** The longest prefix of `s` made of digits. */
  function LeadingDigits(s: string): (d: string)
    ensures d <= s && Decimal.AllDigits(d)
    decreases |s|
  {
    if s == [] || !Decimal.IsDigit(s[0]) then []
    else [s[0]] + LeadingDigits(s[1..])
  }

  /** The count a report message states, read back from its text. */
  function ReportedCount(message: string): Option<nat> {
    if |message| >= |ReportOpen| && message[..|ReportOpen|] == ReportOpen then
      var digits := LeadingDigits(message[|ReportOpen|..]);
      if digits == [] then None else Some(Decimal.DecimalToNat(digits))
    else None
  }

  lemma {:induction false} LeadingDigitsOf(d: string, rest: string)
    requires Decimal.AllDigits(d)
    requires rest != [] && !Decimal.IsDigit(rest[0])
    ensures LeadingDigits(d + rest) == d
    decreases |d|
  {
    if d != [] {
      assert (d + rest)[1..] == d[1..] + rest;
      LeadingDigitsOf(d[1..], rest);
    }
  }

  /** The count the command reports is the number of records it wrote after the header. */
  lemma ReportedCountIsWritten(operation: string, output: Option<string>, stamp: string,
                               history: SqliteStore.HistoryTable)
    requires RunExport(operation, output, stamp, history).Ok?
    ensures var e := RunExport(operation, output, stamp, history).value;
      ReportedCount(e.message) == Some(|e.records|)
  {
    var e := RunExport(operation, output, stamp, history).value;
    var d := Decimal.NatToDecimal(|e.records|);
    var rest := " records to '" + e.path + "'.";
    assert e.message == ReportOpen + (d + rest);
    assert e.message[|ReportOpen|..] == d + rest;
    LeadingDigitsOf(d, rest);
    Decimal.NatDecimalRoundTrip(|e.records|);
  }
}

=== FILE: math_ops.dfy ===
/**
  The integer primitives of services/math_ops.py: the iterative Fibonacci and
  factorial loops, checked against the recursive textbook definitions.
 */
module MathOps {
  import Decimal

  /** The Fibonacci numbers: F(0) = 0, F(1) = 1, F(n+2) = F(n+1) + F(n). */
  function Fib(n: nat): nat {
    if n < 2 then n else Fib(n - 1) + Fib(n - 2)
  }

  /** n! = 1 * 2 * ... * n, with 0! = 1. */
  function Fact(n: nat): nat {
    if n == 0 then 1 else n * Fact(n - 1)
  }

  /**
    What `compute_fibonacci(n)` returns for every int, negative ones included:
    `range(n)` is empty for n <= 0, so the loop leaves `a` at 0.
   */
  function PyFibonacci(n: int): nat {
    if n < 0 then 0 else Fib(n)
  }

  /**
    What `compute_factorial(n)` returns for every int: `range(2, n + 1)` is empty for
    n <= 1, so the product stays 1.
   */
  function PyFactorial(n: int): nat {
    if n < 0 then 1 else Fact(n)
  }

  lemma {:induction false} FactPositive(n: nat)
    ensures Fact(n) >= 1
  {
    if n > 0 {
      FactPositive(n - 1);
    }
  }

  /** Factorials outgrow powers of ten: from 10 on, every factor is at least 10. */
  lemma {:induction false} FactorialLowerBound(n: nat)
    requires n >= 9
    ensures Fact(n) >= Decimal.Pow10(n - 9)
  {
    if n == 9 {
      FactPositive(9);
    } else {
      FactorialLowerBound(n - 1);
      assert Fact(n) == n * Fact(n - 1) >= 10 * Fact(n - 1);
    }
  }

  /** The loop of `compute_fibonacci`: `a, b = b, a + b`, n times. */
  method ComputeFibonacci(n: int) returns (r: int)
    ensures r == PyFibonacci(n)
    ensures r >= 0
    ensures n <= 0 ==> r == 0
    ensures n >= 2 ==> r == PyFibonacci(n - 1) + PyFibonacci(n - 2)
  {
    var a, b := 0, 1;
    var i := 0;
    while i < n
      invariant if n >= 0 then 0 <= i <= n else i == 0
      invariant a == Fib(i) && b == Fib(i + 1)
    {
      a, b := b, a + b;
      i := i + 1;
    }
    r := a;
  }

  /** The loop of `compute_factorial`: `result *= i` for i in 2 .. n. */
  method ComputeFactorial(n: int) returns (r: int)
    ensures r == PyFactorial(n)
    ensures r >= 1
    ensures n <= 1 ==> r == 1
    ensures n >= 1 ==> r == n * PyFactorial(n - 1)
  {
    var result := 1;
    var i := 2;
    while i < n + 1
      invariant if n >= 1 then 2 <= i <= n + 1 else i == 2
      invariant result == Fact(i - 1)
    {
      result := result * i;
      i := i + 1;
    }
    r := result;
    FactPositive(if n < 0 then 0 else n);
  }

  /** The values the repository's tests expect (tests/test_math_ops.py). */
  lemma KnownValues()
    ensures PyFibonacci(0) == 0 && PyFibonacci(1) == 1 && PyFibonacci(10) == 55
    ensures PyFactorial(0) == 1 && PyFactorial(1) == 1 && PyFactorial(5) == 120
  {
    assert Fib(2) == 1 && Fib(3) == 2 && Fib(4) == 3 && Fib(5) == 5;
    assert Fib(6) == 8 && Fib(7) == 13 && Fib(8) == 21 && Fib(9) == 34;
    assert Fact(2) == 2 && Fact(3) == 6 && Fact(4) == 24;
  }
}

=== FILE: memory_store.dfy ===
/**
  The in-memory history of storage/memory_store.py: a list of request records that
  is only ever appended to.
 */
module MemoryStore {
  import opened Values

  /** One entry of the list: the dict `{"operation", "input", "result"}`, values as given. */
  datatype MemoryRecord = MemoryRecord(operation: string, input: InputData, result: Value)

  type MemoryDb = seq<MemoryRecord>

  /** The list when the module is loaded. */
  const EmptyDb: MemoryDb := []

  /**
    `store_request(operation, input_data, result)`: exactly one new record at the end,
    holding the three arguments unconverted; the earlier records are untouched.
   */
  function StoreRequest(db: MemoryDb, operation: string, input: InputData, result: Value): (r: MemoryDb)
    ensures |r| == |db| + 1
    ensures r[..|db|] == db
    ensures r[|db|].operation == operation && r[|db|].input == input && r[|db|].result == result
  {
    db + [MemoryRecord(operation, input, result)]
  }

  /** `get_all_requests()`: the stored records, oldest first. */
  function GetAllRequests(db: MemoryDb): MemoryDb {
    db
  }

  /** Storing each record of `records` in turn, first to last. */
  function StoreAll(db: MemoryDb, records: seq<MemoryRecord>): MemoryDb
    decreases |records|
  {
    if records == [] then db
    else
      var rec := records[0];
      StoreAll(StoreRequest(db, rec.operation, rec.input, rec.result), records[1..])
  }

  /**
    After storing k records the list has grown by exactly k, the earlier records are
    unchanged and the new ones follow in the order they were stored.
   */
  lemma {:induction false} StoreAllAppends(db: MemoryDb, records: seq<MemoryRecord>)
    ensures GetAllRequests(StoreAll(db, records)) == db + records
    ensures |StoreAll(db, records)| == |db| + |records|
    decreases |records|
  {
    if records != [] {
      var rec := records[0];
      StoreAllAppends(db + [rec], records[1..]);
      assert db + [rec] + records[1..] == db + records;
    }
  }

  /** From the module's load on, `get_all_requests` returns exactly the records stored, in order. */
  lemma StoredFromStart(records: seq<MemoryRecord>)
    ensures GetAllRequests(StoreAll(EmptyDb, records)) == records
  {
    StoreAllAppends(EmptyDb, records);
    assert EmptyDb + records == records;
  }
}

=== FILE: ordering.dfy ===
/**
  `ORDER BY <key> DESC` over a table's rows: an insertion sort on sequences, proved to
  return a permutation of its input that is non-increasing in the key. SQL leaves the
  order among equal keys open; this sort keeps earlier rows first, and no contract
  below relies on that choice.
 */
module Ordering {

  /** Every element's key is at least that of every later element. */
  predicate SortedDesc<T>(s: seq<T>, key: T -> int) {
    forall i, j :: 0 <= i < j < |s| ==> key(s[i]) >= key(s[j])
  }

  /** Each element's key is at least that of its successor. */
  predicate ChainDesc<T>(s: seq<T>, key: T -> int)
    decreases |s|
  {
    |s| <= 1 || (key(s[0]) >= key(s[1]) && ChainDesc(s[1..], key))
  }

  /** Comparing neighbours suffices: a descending chain is descending pairwise. */
  lemma {:induction false} ChainIsSorted<T>(s: seq<T>, key: T -> int)
    requires ChainDesc(s, key)
    ensures SortedDesc(s, key)
    decreases |s|
  {
    if |s| > 1 {
      ChainIsSorted(s[1..], key);
      forall i, j | 0 <= i < j < |s| ensures key(s[i]) >= key(s[j]) {
        if i > 0 {
          assert key(s[1..][i - 1]) >= key(s[1..][j - 1]);
        } else if j > 1 {
          assert key(s[1..][0]) >= key(s[1..][j - 1]);
        }
      }
    }
  }

  /** Puts `x` in front of the first element whose key is not greater than its own. */
  function Insert<T(==)>(x: T, s: seq<T>, key: T -> int): (r: seq<T>)
    requires ChainDesc(s, key)
    ensures ChainDesc(r, key)
    ensures multiset(r) == multiset(s) + multiset{x}
    ensures |r| == |s| + 1
    ensures r[0] == x || (|s| > 0 && r[0] == s[0])
    decreases |s|
  {
    if s == [] || key(s[0]) <= key(x) then [x] + s
    else
      var tail := Insert(x, s[1..], key);
      assert s == [s[0]] + s[1..];
      assert ([s[0]] + tail)[1..] == tail;
      [s[0]] + tail
  }

  /** The rows of `s`, greatest key first. */
  function SortDesc<T(==)>(s: seq<T>, key: T -> int): (r: seq<T>)
    ensures ChainDesc(r, key)
    ensures multiset(r) == multiset(s)
    ensures |r| == |s|
    decreases |s|
  {
    if s == [] then []
    else
      assert s == [s[0]] + s[1..];
      Insert(s[0], SortDesc(s[1..], key), key)
  }

  /** `ORDER BY key DESC` as the stores read it: a permutation, non-increasing in the key. */
  lemma SortDescCorrect<T>(s: seq<T>, key: T -> int)
    ensures SortedDesc(SortDesc(s, key), key)
    ensures multiset(SortDesc(s, key)) == multiset(s)
    ensures forall e :: e in SortDesc(s, key) <==> e in s
  {
    var r := SortDesc(s, key);
    ChainIsSorted(r, key);
    forall e ensures e in r <==> e in s {
      assert e in r <==> e in multiset(r);
      assert e in s <==> e in multiset(s);
    }
  }
}

=== FILE: sqlite_store.dfy ===
/**
  The `requests` table of storage/sqlite_store.py: an append-only history with
  `AUTOINCREMENT` ids, read back newest first. `lastId` is the largest id handed out
  so far (SQLite's `sqlite_sequence` entry). The connection, the file and the
  diagnostic printing are left out; the `CURRENT_TIMESTAMP` of an insert is a
  parameter, an integer whose order is that of the text SQLite stores.
 */
module SqliteStore {
  import opened Wrappers
  import opened Values
  import Ordering

  datatype HistoryRow = HistoryRow(
    id: nat,
    operation: string,
    inputData: string,
    result: string,
    timestamp: int)

  datatype HistoryTable = HistoryTable(rows: seq<HistoryRow>, lastId: nat)

  /** The table as `init_db` creates it, with no id handed out yet. */
  const EmptyHistory := HistoryTable([], 0)

  /** Ids are positive, handed out in increasing order, and none exceeds the counter. */
  predicate Valid(t: HistoryTable) {
    && (forall i :: 0 <= i < |t.rows| ==> 1 <= t.rows[i].id <= t.lastId)
    && (forall i, j :: 0 <= i < j < |t.rows| ==> t.rows[i].id < t.rows[j].id)
  }

  function Timestamp(row: HistoryRow): int {
    row.timestamp
  }

  /**
    `store_request_sqlite(operation, input_data, result)`: one new row at the end with
    the next id, holding the operation, `str(input_data)` and `str(result)`. The
    diagnostic print converts the dict and then the result before anything is
    inserted, so an int over the digit limit in either raises, and then nothing is
    inserted; the dict's failure comes first.
   */
  function StoreRequestSqlite(t: HistoryTable, operation: string, input: InputData, result: Value,
                              now: int, maxStrDigits: nat): (r: Result<HistoryTable, PyError>)
    ensures r.Err? <==> InputExceedsStrLimit(input, maxStrDigits) || Str(result, maxStrDigits).Err?
    ensures InputExceedsStrLimit(input, maxStrDigits) ==> r == Err(ValueError)
    ensures !InputExceedsStrLimit(input, maxStrDigits) && r.Err? ==> r.error == Str(result, maxStrDigits).error
    ensures r.Ok? ==> |r.value.rows| == |t.rows| + 1 && r.value.rows[..|t.rows|] == t.rows
    ensures r.Ok? ==>
      var row := r.value.rows[|t.rows|];
      && row.operation == operation
      && row.inputData == RenderInput(input)
      && Str(result, maxStrDigits) == Ok(row.result)
      && row.timestamp == now
    ensures r.Ok? && Valid(t) ==> forall i :: 0 <= i < |t.rows| ==> t.rows[i].id < r.value.rows[|t.rows|].id
    ensures r.Ok? && Valid(t) ==> Valid(r.value)
  {
    match StrInput(input, maxStrDigits)
    case Err(e) => Err(e)
    case Ok(inputText) =>
      match Str(result, maxStrDigits)
      case Err(e) => Err(e)
      case Ok(text) =>
        var row := HistoryRow(t.lastId + 1, operation, inputText, text, now);
        Ok(HistoryTable(t.rows + [row], t.lastId + 1))
  }

  /**
    `get_all_requests_sqlite()`: every row as (id, operation, input_data, result,
    timestamp), newest first (`ORDER BY timestamp DESC`); rows with equal timestamps
    come in an order the contract leaves open.
   */
  function GetAllRequestsSqlite(t: HistoryTable): (r: seq<HistoryRow>)
    ensures |r| == |t.rows|
    ensures multiset(r) == multiset(t.rows)
    ensures forall x :: x in r <==> x in t.rows
    ensures Ordering.SortedDesc(r, Timestamp)
  {
    Ordering.SortDescCorrect(t.rows, Timestamp);
    Ordering.SortDesc(t.rows, Timestamp)
  }

  /** One call of `store_request_sqlite`. */
  datatype Request = Request(operation: string, input: InputData, result: Value, now: int)

  /** A run of calls, first to last; a call that raises inserts nothing. */
  function StoreMany(t: HistoryTable, requests: seq<Request>, maxStrDigits: nat): HistoryTable
    decreases |requests|
  {
    if requests == [] then t
    else
      var q := requests[0];
      var next := match StoreRequestSqlite(t, q.operation, q.input, q.result, q.now, maxStrDigits)
        case Ok(t') => t'
        case Err(_) => t;
      StoreMany(next, requests[1..], maxStrDigits)
  }

  /**
    With no update or delete, the table only grows: whatever calls are made, the
    earlier rows stay in place, at most one row per call is added, the id counter
    never goes back and the id invariant holds throughout.
   */
  lemma {:induction false} TableOnlyGrows(t: HistoryTable, requests: seq<Request>, maxStrDigits: nat)
    requires Valid(t)
    ensures var t' := StoreMany(t, requests, maxStrDigits);
      && t.rows <= t'.rows
      && |t'.rows| <= |t.rows| + |requests|
      && t.lastId <= t'.lastId
      && Valid(t')
    decreases |requests|
  {
    if requests != [] {
      var q := requests[0];
      var next := match StoreRequestSqlite(t, q.operation, q.input, q.result, q.now, maxStrDigits)
        case Ok(t') => t'
        case Err(_) => t;
      assert t.rows <= next.rows && t.lastId <= next.lastId && |next.rows| <= |t.rows| + 1;
      TableOnlyGrows(next, requests[1..], maxStrDigits);
    }
  }

  /**
    From the table's creation on, whatever calls are made, ids stay positive, increasing
    and within the counter, and each call added at most one row.
   */
  lemma HistoryFromCreation(requests: seq<Request>, maxStrDigits: nat)
    ensures Valid(StoreMany(EmptyHistory, requests, maxStrDigits))
    ensures |StoreMany(EmptyHistory, requests, maxStrDigits).rows| <= |requests|
  {
    TableOnlyGrows(EmptyHistory, requests, maxStrDigits);
  }
}

=== FILE: summary.dfy ===
/**
  `summarize_result` and `digit_count` of storage/task_store.py: bounding the text of a
  possibly huge result for storage. The function never raises: a failed conversion
  becomes a fixed sentinel text.
 */
module Summary {
  import opened Wrappers
  import opened Values
  import Decimal

  /** The default character budget of `summarize_result`. */
  const DefaultMaxDigits: int := 3000

  const TruncationOpen: string := "... [truncated, "
  const TruncationClose: string := " digits]"

  /** The marker appended to a truncated text of `total` characters. */
  function Marker(total: nat): string {
    TruncationOpen + Decimal.NatToDecimal(total) + TruncationClose
  }

  /** Python's `s[:m]`; a negative `m` drops that many characters from the end. */
  function PyPrefix(s: string, m: int): (r: string)
    ensures r <= s
    ensures m >= 0 ==> |r| == (if m < |s| then m else |s|)
    ensures m < 0 ==> |r| == (if |s| + m > 0 then |s| + m else 0)
  {
    if m >= 0 then (if m < |s| then s[..m] else s)
    else if |s| + m > 0 then s[..|s| + m]
    else []
  }

  /**
    `digit_count(n)` for an int. For n > 0 the source computes `int(log10(n)) + 1`; the
    model takes the exact value of that formula. Otherwise it is `len(str(n))`, and
    -1 when that conversion raises.
   */
  function DigitCount(n: int, maxStrDigits: nat): (r: int)
    ensures n > 0 ==> r >= 1 && Decimal.Pow10(r - 1) <= n < Decimal.Pow10(r)
    ensures n <= 0 ==> (r == -1 <==> ExceedsStrLimit(n, maxStrDigits))
    ensures n <= 0 && !ExceedsStrLimit(n, maxStrDigits) ==>
      r == Decimal.DecimalLength(Abs(n)) + (if n < 0 then 1 else 0)
  {
    if n > 0 then
      Decimal.DecimalLengthBounds(n);
      Decimal.DecimalLength(n)
    else
      match Str(IntV(n), maxStrDigits)
      case Ok(s) => |s|
      case Err(_) => -1
  }

  /** `summarize_result(result, max_digits)` under the interpreter's int digit limit. */
  function SummarizeResult(v: Value, maxDigits: int, maxStrDigits: nat): string {
    match Str(v, maxStrDigits)
    case Ok(s) =>
      if |s| > maxDigits then PyPrefix(s, maxDigits) + Marker(|s|) else s
    case Err(ValueError) =>
      if v.IntV? then "[int with " + Decimal.IntToDecimal(DigitCount(v.i, maxStrDigits)) + " digits]"
      else "[unrepresentable result]"
    case Err(OtherError(message)) =>
      "[error: " + message + "]"
  }

  /**
    Reads the original length back out of a truncated summary made with budget
    `maxDigits`; None when `summary` does not end in a truncation marker there.
   */
  function TruncatedLength(summary: string, maxDigits: nat): Option<nat> {
    if |summary| < maxDigits + |TruncationOpen| + |TruncationClose| + 1 then None
    else
      var rest := summary[maxDigits..];
      var digits := rest[|TruncationOpen|..|rest| - |TruncationClose|];
      if rest[..|TruncationOpen|] == TruncationOpen
         && rest[|rest| - |TruncationClose|..] == TruncationClose
         && Decimal.AllDigits(digits)
      then Some(Decimal.DecimalToNat(digits))
      else None
  }

  lemma MarkerRecoverable(prefix: string, total: nat)
    ensures TruncatedLength(prefix + Marker(total), |prefix|) == Some(total)
  {
    var d := Decimal.NatToDecimal(total);
    var r := prefix + Marker(total);
    var rest := r[|prefix|..];
    assert rest == TruncationOpen + d + TruncationClose;
    assert rest[..|TruncationOpen|] == TruncationOpen;
    assert rest[|rest| - |TruncationClose|..] == TruncationClose;
    assert rest[|TruncationOpen|..|rest| - |TruncationClose|] == d;
    Decimal.NatDecimalRoundTrip(total);
  }

  /**
    A result whose text fits the budget is stored verbatim. A longer one is stored as
    its first `maxDigits` characters, which are a prefix of the text, followed by a
    marker from which the text's true length reads back; the summary's length is then
    the budget plus the marker's.
   */
  lemma SummaryOfText(v: Value, maxDigits: nat, maxStrDigits: nat, s: string)
    requires Str(v, maxStrDigits) == Ok(s)
    ensures |s| <= maxDigits ==> SummarizeResult(v, maxDigits, maxStrDigits) == s
    ensures |s| > maxDigits ==>
      var r := SummarizeResult(v, maxDigits, maxStrDigits);
      && r == s[..maxDigits] + Marker(|s|)
      && r[..maxDigits] <= s
      && |r| == maxDigits + |TruncationOpen| + Decimal.DecimalLength(|s|) + |TruncationClose|
      && TruncatedLength(r, maxDigits) == Some(|s|)
  {
    if |s| > maxDigits {
      var r := SummarizeResult(v, maxDigits, maxStrDigits);
      assert r == s[..maxDigits] + Marker(|s|);
      assert r[..maxDigits] == s[..maxDigits];
      MarkerRecoverable(s[..maxDigits], |s|);
    }
  }

  /**
    The text of an int above the digit limit is never built. A positive one is
    summarised by its digit count; a negative one reports -1 digits, because
    `digit_count` falls back to `len(str(n))`, which raises again. Other values report
    a fixed sentinel, and any other exception its message.
   */
  lemma SummaryOfUnconvertible(v: Value, maxDigits: int, maxStrDigits: nat)
    requires Str(v, maxStrDigits).Err?
    ensures v.IntV? && v.i > 0 ==>
      SummarizeResult(v, maxDigits, maxStrDigits)
        == "[int with " + Decimal.NatToDecimal(Decimal.DecimalLength(v.i)) + " digits]"
    ensures v.IntV? && v.i <= 0 ==>
      SummarizeResult(v, maxDigits, maxStrDigits) == "[int with -1 digits]"
    ensures !v.IntV? && Str(v, maxStrDigits).error == ValueError ==>
      SummarizeResult(v, maxDigits, maxStrDigits) == "[unrepresentable result]"
    ensures Str(v, maxStrDigits).error.OtherError? ==>
      SummarizeResult(v, maxDigits, maxStrDigits) == "[error: " + Str(v, maxStrDigits).error.message + "]"
  {
    if v.IntV? && v.i <= 0 {
      assert DigitCount(v.i, maxStrDigits) == -1;
      assert Decimal.NatToDecimal(1) == "1";
    }
  }
}

=== FILE: task_status.dfy ===
/**
  The in-memory status board of storage/task_status.py: one map from task id to a
  status text and an independent one from task id to the raw result. Every access
  holds one global lock, so the model applies the operations one at a time.
 */
module TaskStatus {
  import opened Wrappers
  import opened Values

  datatype StatusBoard = StatusBoard(status: map<string, string>, results: map<string, Value>)

  /** The board when the module is loaded: both dicts empty. */
  const EmptyBoard := StatusBoard(map[], map[])

  /** What `get_status` reports for an id that was never given a status. */
  const UnknownStatus := "unknown"

  /** `get_status(task_id)`. */
  function GetStatus(b: StatusBoard, taskId: string): (r: string)
    ensures taskId !in b.status ==> r == UnknownStatus
  {
    if taskId in b.status then b.status[taskId] else UnknownStatus
  }

  /** `get_result(task_id)`: None for an id that has no result. */
  function GetResult(b: StatusBoard, taskId: string): (r: Option<Value>)
    ensures r.None? <==> taskId !in b.results
  {
    if taskId in b.results then Some(b.results[taskId]) else None
  }

  /** On a fresh board every id reads `unknown` and has no result. */
  lemma FreshBoard(taskId: string)
    ensures GetStatus(EmptyBoard, taskId) == UnknownStatus
    ensures GetResult(EmptyBoard, taskId) == None
  {
  }

  /**
    `set_status(task_id, status)`: any text is accepted, whatever the current status;
    afterwards the id reads back `status` and nothing else is observably changed.
   */
  function SetStatus(b: StatusBoard, taskId: string, status: string): (r: StatusBoard)
    ensures GetStatus(r, taskId) == status
    ensures forall other :: other != taskId ==> GetStatus(r, other) == GetStatus(b, other)
    ensures forall id :: GetResult(r, id) == GetResult(b, id)
  {
    b.(status := b.status[taskId := status])
  }

  /** `set_result(task_id, result)`: stores the value as given and leaves every status alone. */
  function SetResult(b: StatusBoard, taskId: string, result: Value): (r: StatusBoard)
    ensures GetResult(r, taskId) == Some(result)
    ensures forall other :: other != taskId ==> GetResult(r, other) == GetResult(b, other)
    ensures forall id :: GetStatus(r, id) == GetStatus(b, id)
  {
    b.(results := b.results[taskId := result])
  }

  /** The last write wins: an earlier status of the same id leaves no trace. */
  lemma SetStatusLastWriteWins(b: StatusBoard, taskId: string, first: string, second: string)
    ensures SetStatus(SetStatus(b, taskId, first), taskId, second) == SetStatus(b, taskId, second)
  {
  }

  /** Writes to different ids do not interfere, so their order does not matter. */
  lemma SetStatusCommutes(b: StatusBoard, a: string, sa: string, c: string, sc: string)
    requires a != c
    ensures SetStatus(SetStatus(b, a, sa), c, sc) == SetStatus(SetStatus(b, c, sc), a, sa)
  {
  }

  /** The two maps are independent: results and statuses can be written in either order. */
  lemma StatusAndResultCommute(b: StatusBoard, taskId: string, s: string, v: Value, other: string)
    ensures SetResult(SetStatus(b, taskId, s), other, v) == SetStatus(SetResult(b, other, v), taskId, s)
  {
  }
}

=== FILE: task_store.dfy ===
/**
  The `tasks` table of storage/task_store.py. The table is its rows in insertion
  order; `task_id` is the primary key, so a valid table never holds two rows with the
  same id. The connection, the database file and the clock are left out: the time a
  row is created is a parameter, an integer whose order is that of the ISO 8601 text
  the source stores.
 */
module TaskStore {
  import opened Wrappers
  import opened Values
  import Summary
  import Ordering

  const Queued := "queued"
  const Done := "done"

  datatype TaskRow = TaskRow(
    taskId: string,
    operation: string,
    inputData: string,
    result: Option<string>,
    status: string,
    createdAt: int)

  datatype TaskTable = TaskTable(rows: seq<TaskRow>)

  /** The table as `init_task_db` creates it. */
  const EmptyTable := TaskTable([])

  /**
    What `save_task` raises: `str(input_data)` failing on an int over the digit limit
    (the arguments are built before the `INSERT` runs), or the primary key already taken.
   */
  datatype SaveError = ConversionError(error: PyError) | IntegrityError

  /** The dict `get_task` returns. */
  datatype TaskView = TaskView(taskId: string, status: string, result: Option<string>)

  /** The dicts `get_all_tasks` returns. */
  datatype TaskListing = TaskListing(
    taskId: string,
    operation: string,
    input: string,
    status: string,
    result: Option<string>)

  /** The two `UPDATE` statements of the module. */
  datatype Patch = StatusPatch(status: string) | ResultPatch(summary: string)

  predicate UniqueIds(rows: seq<TaskRow>) {
    forall i, j :: 0 <= i < j < |rows| ==> rows[i].taskId != rows[j].taskId
  }

  /** The primary-key constraint the database maintains. */
  predicate Valid(t: TaskTable) {
    UniqueIds(t.rows)
  }

  function ViewOf(row: TaskRow): TaskView {
    TaskView(row.taskId, row.status, row.result)
  }

  function ListingOf(row: TaskRow): TaskListing {
    TaskListing(row.taskId, row.operation, row.inputData, row.status, row.result)
  }

  function CreatedAt(row: TaskRow): int {
    row.createdAt
  }

  /** Every row's listing, in table order. */
  function Listings(rows: seq<TaskRow>): (r: seq<TaskListing>)
    ensures |r| == |rows|
    ensures forall i :: 0 <= i < |rows| ==> r[i] == ListingOf(rows[i])
  {
    seq(|rows|, i requires 0 <= i < |rows| => ListingOf(rows[i]))
  }

  /** `SELECT ... WHERE task_id = ?` followed by `fetchone()`: the first matching row. */
  function FindRow(rows: seq<TaskRow>, taskId: string): (r: Option<TaskRow>)
    ensures r.Some? ==> r.value in rows && r.value.taskId == taskId
    ensures r.None? <==> forall i :: 0 <= i < |rows| ==> rows[i].taskId != taskId
    decreases |rows|
  {
    if rows == [] then None
    else if rows[0].taskId == taskId then Some(rows[0])
    else
      var r := FindRow(rows[1..], taskId);
      assert forall i :: 1 <= i < |rows| ==> rows[i] == rows[1..][i - 1];
      r
  }

  /** A new table satisfies the primary key and holds no task. */
  lemma EmptyTableValid()
    ensures Valid(EmptyTable)
    ensures forall taskId :: GetTask(EmptyTable, taskId).None?
  {
  }

  lemma {:induction false} FindRowUnique(rows: seq<TaskRow>, row: TaskRow)
    requires UniqueIds(rows) && row in rows
    ensures FindRow(rows, row.taskId) == Some(row)
    decreases |rows|
  {
    if rows[0] != row {
      assert row in rows[1..];
      assert UniqueIds(rows[1..]) by {
        forall i, j | 0 <= i < j < |rows[1..]| ensures rows[1..][i].taskId != rows[1..][j].taskId {
          assert rows[1..][i] == rows[i + 1] && rows[1..][j] == rows[j + 1];
        }
      }
      FindRowUnique(rows[1..], row);
      var k :| 1 <= k < |rows| && rows[k] == row;
      assert rows[0].taskId != row.taskId;
    }
  }

  lemma {:induction false} FindRowAppend(rows: seq<TaskRow>, row: TaskRow, taskId: string)
    ensures FindRow(rows + [row], taskId)
      == if FindRow(rows, taskId).Some? then FindRow(rows, taskId)
         else if row.taskId == taskId then Some(row)
         else None
    decreases |rows|
  {
    if rows == [] {
      assert [row][1..] == [];
    } else {
      assert (rows + [row])[1..] == rows[1..] + [row];
      FindRowAppend(rows[1..], row, taskId);
    }
  }

  function Apply(row: TaskRow, p: Patch): TaskRow {
    match p
    case StatusPatch(s) => row.(status := s)
    case ResultPatch(summary) => row.(result := Some(summary), status := Done)
  }

  /** `UPDATE tasks SET ... WHERE task_id = ?`: the patch on every matching row, the rest as they were. */
  function UpdateWhere(rows: seq<TaskRow>, taskId: string, p: Patch): (r: seq<TaskRow>)
    ensures |r| == |rows|
    ensures forall i :: 0 <= i < |rows| ==>
      r[i] == if rows[i].taskId == taskId then Apply(rows[i], p) else rows[i]
    decreases |rows|
  {
    if rows == [] then []
    else
      [if rows[0].taskId == taskId then Apply(rows[0], p) else rows[0]]
        + UpdateWhere(rows[1..], taskId, p)
  }

  /** The row a lookup of `x` should find once `p` has been applied to the rows of `taskId`. */
  function AfterPatch(rows: seq<TaskRow>, taskId: string, p: Patch, x: string): Option<TaskRow> {
    match FindRow(rows, x)
    case None => None
    case Some(row) => Some(if x == taskId then Apply(row, p) else row)
  }

  lemma {:induction false} FindRowAfterUpdate(rows: seq<TaskRow>, taskId: string, p: Patch, x: string)
    ensures FindRow(UpdateWhere(rows, taskId, p), x) == AfterPatch(rows, taskId, p, x)
    decreases |rows|
  {
    if rows != [] {
      var u := UpdateWhere(rows, taskId, p);
      assert u[1..] == UpdateWhere(rows[1..], taskId, p);
      FindRowAfterUpdate(rows[1..], taskId, p, x);
    }
  }

  /** `get_task(task_id)`: the id, status and result of the task, or None when there is no such task. */
  function GetTask(t: TaskTable, taskId: string): (r: Option<TaskView>)
    ensures r.None? <==> forall i :: 0 <= i < |t.rows| ==> t.rows[i].taskId != taskId
    ensures r.Some? ==> (r.value.taskId == taskId
      && exists i :: 0 <= i < |t.rows| && t.rows[i].taskId == taskId && r.value == ViewOf(t.rows[i]))
  {
    match FindRow(t.rows, taskId)
    case None => None
    case Some(row) => Some(ViewOf(row))
  }

  /** With the primary key in force, the view is that of the one row holding the id. */
  lemma GetTaskOfRow(t: TaskTable, row: TaskRow)
    requires Valid(t) && row in t.rows
    ensures GetTask(t, row.taskId) == Some(ViewOf(row))
  {
    FindRowUnique(t.rows, row);
  }

  function PatchView(v: TaskView, p: Patch): TaskView {
    match p
    case StatusPatch(s) => v.(status := s)
    case ResultPatch(summary) => v.(result := Some(summary), status := Done)
  }

  lemma UpdateKeepsValid(t: TaskTable, taskId: string, p: Patch)
    ensures Valid(t) ==> Valid(TaskTable(UpdateWhere(t.rows, taskId, p)))
  {
    var u := UpdateWhere(t.rows, taskId, p);
    assert forall i :: 0 <= i < |u| ==> u[i].taskId == t.rows[i].taskId;
  }

  lemma UpdateOfUnknownId(t: TaskTable, taskId: string, p: Patch)
    requires GetTask(t, taskId).None?
    ensures UpdateWhere(t.rows, taskId, p) == t.rows
  {
  }

  /** What an update does as `get_task` sees it: only the patched id reads differently. */
  lemma UpdateAsSeen(t: TaskTable, taskId: string, p: Patch)
    ensures Valid(t) ==> Valid(TaskTable(UpdateWhere(t.rows, taskId, p)))
    ensures GetTask(t, taskId).None? ==> UpdateWhere(t.rows, taskId, p) == t.rows
    ensures GetTask(t, taskId).Some? ==>
      GetTask(TaskTable(UpdateWhere(t.rows, taskId, p)), taskId) == Some(PatchView(GetTask(t, taskId).value, p))
    ensures forall other :: other != taskId ==>
      GetTask(TaskTable(UpdateWhere(t.rows, taskId, p)), other) == GetTask(t, other)
  {
    UpdateKeepsValid(t, taskId, p);
    if GetTask(t, taskId).None? {
      UpdateOfUnknownId(t, taskId, p);
    }
    var u := UpdateWhere(t.rows, taskId, p);
    FindRowAfterUpdate(t.rows, taskId, p, taskId);
    forall other | other != taskId ensures GetTask(TaskTable(u), other) == GetTask(t, other) {
      FindRowAfterUpdate(t.rows, taskId, p, other);
    }
  }

  /**
    `save_task(task_id, operation, input_data)`: a new row, queued and without a result,
    created at `now`. A dict that cannot be converted to text raises first; a taken id
    raises at the insert. Either way the table stays as it was.
   */
  function SaveTask(t: TaskTable, taskId: string, operation: string, input: InputData, now: int,
                    maxStrDigits: nat): (r: Result<TaskTable, SaveError>)
    ensures r.Err? <==> InputExceedsStrLimit(input, maxStrDigits) || GetTask(t, taskId).Some?
    ensures r.Err? ==>
      r.error == if InputExceedsStrLimit(input, maxStrDigits) then ConversionError(ValueError) else IntegrityError
    ensures r.Ok? ==> |r.value.rows| == |t.rows| + 1 && t.rows <= r.value.rows
    ensures r.Ok? ==> GetTask(r.value, taskId) == Some(TaskView(taskId, Queued, None))
    ensures r.Ok? ==> forall other :: other != taskId ==> GetTask(r.value, other) == GetTask(t, other)
    ensures r.Ok? ==>
      && r.value.rows[|t.rows|].operation == operation
      && r.value.rows[|t.rows|].inputData == RenderInput(input)
      && r.value.rows[|t.rows|].createdAt == now
    ensures r.Ok? && Valid(t) ==> Valid(r.value)
  {
    if StrInput(input, maxStrDigits).Err? then Err(ConversionError(ValueError))
    else if FindRow(t.rows, taskId).Some? then Err(IntegrityError)
    else
      var row := TaskRow(taskId, operation, RenderInput(input), None, Queued, now);
      var rows := t.rows + [row];
      assert forall x :: FindRow(rows, x) == if x == taskId then Some(row) else FindRow(t.rows, x) by {
        forall x { FindRowAppend(t.rows, row, x); }
      }
      assert UniqueIds(t.rows) ==> UniqueIds(rows) by {
        if UniqueIds(t.rows) {
          forall i, j | 0 <= i < j < |rows| ensures rows[i].taskId != rows[j].taskId {
            if j == |t.rows| {
              assert rows[i] == t.rows[i];
            }
          }
        }
      }
      Ok(TaskTable(rows))
  }

  /**
    `update_task_status(task_id, status)`: that task's status becomes `status`, whatever
    it was before, and its other fields and every other task stay as they were. An
    unknown id changes nothing.
   */
  function UpdateTaskStatus(t: TaskTable, taskId: string, status: string): (r: TaskTable)
    ensures GetTask(t, taskId).None? ==> r == t
    ensures GetTask(t, taskId).Some? ==>
      GetTask(r, taskId) == Some(GetTask(t, taskId).value.(status := status))
    ensures forall other :: other != taskId ==> GetTask(r, other) == GetTask(t, other)
    ensures |r.rows| == |t.rows|
    ensures forall i :: 0 <= i < |t.rows| ==>
      r.rows[i] == if t.rows[i].taskId == taskId then t.rows[i].(status := status) else t.rows[i]
    ensures Valid(t) ==> Valid(r)
  {
    UpdateAsSeen(t, taskId, StatusPatch(status));
    TaskTable(UpdateWhere(t.rows, taskId, StatusPatch(status)))
  }

  /**
    `update_task_result(task_id, result)`: in one update the task's result becomes the
    summary of `result` (default budget) and its status `done`; nothing else changes.
   */
  function UpdateTaskResult(t: TaskTable, taskId: string, result: Value, maxStrDigits: nat): (r: TaskTable)
    ensures GetTask(t, taskId).None? ==> r == t
    ensures GetTask(t, taskId).Some? ==>
      GetTask(r, taskId)
        == Some(TaskView(taskId, Done, Some(Summary.SummarizeResult(result, Summary.DefaultMaxDigits, maxStrDigits))))
    ensures forall other :: other != taskId ==> GetTask(r, other) == GetTask(t, other)
    ensures |r.rows| == |t.rows|
    ensures forall i :: 0 <= i < |t.rows| ==>
      r.rows[i] == if t.rows[i].taskId == taskId
        then t.rows[i].(result := Some(Summary.SummarizeResult(result, Summary.DefaultMaxDigits, maxStrDigits)),
                        status := Done)
        else t.rows[i]
    ensures Valid(t) ==> Valid(r)
  {
    var summary := Summary.SummarizeResult(result, Summary.DefaultMaxDigits, maxStrDigits);
    UpdateAsSeen(t, taskId, ResultPatch(summary));
    TaskTable(UpdateWhere(t.rows, taskId, ResultPatch(summary)))
  }

  /** The creation time of the task with this id, as `ORDER BY created_at` sees it. */
  function CreatedAtOf(t: TaskTable, taskId: string): int {
    match FindRow(t.rows, taskId)
    case None => 0
    case Some(row) => row.createdAt
  }

  /**
    `get_all_tasks()`: one listing per row, each row's listing present, newest task
    first (`ORDER BY created_at DESC`).
   */
  function GetAllTasks(t: TaskTable): (r: seq<TaskListing>)
    ensures |r| == |t.rows|
    ensures forall x :: x in r <==> x in Listings(t.rows)
    ensures Valid(t) ==>
      forall j, k :: 0 <= j < k < |r| ==> CreatedAtOf(t, r[j].taskId) >= CreatedAtOf(t, r[k].taskId)
  {
    var sorted := Ordering.SortDesc(t.rows, CreatedAt);
    Ordering.SortDescCorrect(t.rows, CreatedAt);
    ListingsOfPermutation(sorted, t.rows);
    if Valid(t) then
      SortedListingsByCreation(t, sorted);
      Listings(sorted)
    else
      Listings(sorted)
  }

  /** Rows that are a permutation of each other have the same listings. */
  lemma ListingsOfPermutation(a: seq<TaskRow>, b: seq<TaskRow>)
    requires forall row :: row in a <==> row in b
    ensures forall x :: x in Listings(a) <==> x in Listings(b)
  {
    forall x | x in Listings(a) ensures x in Listings(b) {
      var k :| 0 <= k < |a| && Listings(a)[k] == x;
      assert a[k] in b;
      var i :| 0 <= i < |b| && b[i] == a[k];
      assert Listings(b)[i] == x;
    }
    forall x | x in Listings(b) ensures x in Listings(a) {
      var i :| 0 <= i < |b| && Listings(b)[i] == x;
      assert b[i] in a;
      var k :| 0 <= k < |a| && a[k] == b[i];
      assert Listings(a)[k] == x;
    }
  }

  /** Listing the table's rows newest first orders the listed ids by their creation time. */
  lemma SortedListingsByCreation(t: TaskTable, sorted: seq<TaskRow>)
    requires Valid(t)
    requires forall row :: row in sorted ==> row in t.rows
    requires Ordering.SortedDesc(sorted, CreatedAt)
    ensures forall j, k :: 0 <= j < k < |sorted| ==>
      CreatedAtOf(t, Listings(sorted)[j].taskId) >= CreatedAtOf(t, Listings(sorted)[k].taskId)
  {
    forall k | 0 <= k < |sorted| ensures CreatedAtOf(t, Listings(sorted)[k].taskId) == sorted[k].createdAt {
      FindRowUnique(t.rows, sorted[k]);
    }
  }

  /**
    The life of a task as the module allows it: saved as queued, marked in progress,
    then given its result, after which it reads as done with the summarised result.
   */
  lemma TaskLifecycle(t: TaskTable, taskId: string, operation: string, input: InputData, now: int,
                      result: Value, maxStrDigits: nat)
    requires SaveTask(t, taskId, operation, input, now, maxStrDigits).Ok?
    ensures
      var t1 := SaveTask(t, taskId, operation, input, now, maxStrDigits).value;
      var t2 := UpdateTaskStatus(t1, taskId, "in_progress");
      var t3 := UpdateTaskResult(t2, taskId, result, maxStrDigits);
      && GetTask(t1, taskId) == Some(TaskView(taskId, Queued, None))
      && GetTask(t2, taskId) == Some(TaskView(taskId, "in_progress", None))
      && GetTask(t3, taskId)
        == Some(TaskView(taskId, Done, Some(Summary.SummarizeResult(result, Summary.DefaultMaxDigits, maxStrDigits))))
  {
  }

  /**
    No order of statuses is enforced: a finished task can be set back to queued, and it
    then keeps its result, so "a result exactly when done" is not an invariant of the table.
   */
  lemma StatusOrderNotEnforced(t: TaskTable, taskId: string, result: Value, maxStrDigits: nat)
    requires GetTask(t, taskId).Some?
    ensures
      var back := UpdateTaskStatus(UpdateTaskResult(t, taskId, result, maxStrDigits), taskId, Queued);
      GetTask(back, taskId)
        == Some(TaskView(taskId, Queued, Some(Summary.SummarizeResult(result, Summary.DefaultMaxDigits, maxStrDigits))))
  {
  }
}

=== FILE: values.dfy ===
/**
  The Python values that flow through the service, and the two text conversions the
  stores apply to them: `str(value)` (which can raise) and `str(dict)` of a request's
  named arguments.
 */
module Values {
  import opened Wrappers
  import Decimal

  /** CPython's default for `sys.get_int_max_str_digits()`; 0 switches the limit off. */
  const DefaultMaxStrDigits: nat := 4300

  /** A Python float, kept abstractly as the text `str` and `repr` both give for it. */
  datatype Float = Float(text: string)

  /** The exceptions a text conversion can raise. */
  datatype PyError = ValueError | OtherError(message: string)

  /**
    A computed result: an int, a float, or any other object, the latter known only by
    what converting it to text does (returns a string or raises).
   */
  datatype Value =
    | IntV(i: int)
    | FloatV(f: Float)
    | ObjectV(conversion: Result<string, PyError>)

  function Abs(i: int): nat {
    if i < 0 then -i else i
  }

  /** CPython refuses to convert an int whose magnitude has more digits than the limit. */
  predicate ExceedsStrLimit(i: int, maxStrDigits: nat) {
    maxStrDigits > 0 && Decimal.DecimalLength(Abs(i)) > maxStrDigits
  }

  /** `str(v)` under the interpreter's int digit limit `maxStrDigits`. */
  function Str(v: Value, maxStrDigits: nat): (r: Result<string, PyError>)
    ensures v.IntV? ==> (r.Err? <==> ExceedsStrLimit(v.i, maxStrDigits))
    ensures v.IntV? && r.Err? ==> r.error == ValueError
    ensures v.IntV? && r.Ok? ==> |r.value| == Decimal.DecimalLength(Abs(v.i)) + (if v.i < 0 then 1 else 0)
    ensures v.IntV? && r.Ok? ==>
      && (r.value[0] == '-' <==> v.i < 0)
      && var digits := r.value[(if v.i < 0 then 1 else 0)..];
         Decimal.Canonical(digits) && Decimal.DecimalToNat(digits) == Abs(v.i)
    ensures v.FloatV? ==> r.Ok?
  {
    match v
    case IntV(i) =>
      if ExceedsStrLimit(i, maxStrDigits) then Err(ValueError)
      else
        var s := Decimal.IntToDecimal(i);
        Decimal.NatDecimalRoundTrip(Abs(i));
        assert s[(if i < 0 then 1 else 0)..] == Decimal.NatToDecimal(Abs(i));
        Ok(s)
    case FloatV(f) => Ok(f.text)
    case ObjectV(conversion) => conversion
  }

  /** A named argument of a request, as the runners and routes pass them. */
  datatype Arg = IntArg(n: int) | FloatArg(x: Float)

  /** A request's argument dict, in insertion order: `{"n": n}`, `{"base": a, "exponent": b}`. */
  type InputData = seq<(string, Arg)>

  function ReprArg(a: Arg): string {
    match a
    case IntArg(n) => Decimal.IntToDecimal(n)
    case FloatArg(x) => x.text
  }

  function ReprEntry(e: (string, Arg)): string {
    "'" + e.0 + "': " + ReprArg(e.1)
  }

  function ReprEntries(d: InputData): string
    decreases |d|
  {
    if |d| == 0 then ""
    else if |d| == 1 then ReprEntry(d[0])
    else ReprEntry(d[0]) + ", " + ReprEntries(d[1..])
  }

  /** `str(input_data)`: the dict's Python rendering, e.g. `{'n': 10}`. */
  function RenderInput(d: InputData): (s: string)
    ensures |s| >= 2 && s[0] == '{' && s[|s| - 1] == '}'
  {
    "{" + ReprEntries(d) + "}"
  }

  /** Some int among the dict's values has more digits than the limit allows converting. */
  predicate InputExceedsStrLimit(d: InputData, maxStrDigits: nat) {
    exists i :: 0 <= i < |d| && d[i].1.IntArg? && ExceedsStrLimit(d[i].1.n, maxStrDigits)
  }

  /**
    `str(input_data)` (or its `repr`, which is the same text) under the digit limit: it
    converts every value, so one int value that `str` refuses makes the whole dict raise.
   */
  function StrInput(d: InputData, maxStrDigits: nat): (r: Result<string, PyError>)
    ensures r.Err? <==> exists i :: 0 <= i < |d| && d[i].1.IntArg? && Str(IntV(d[i].1.n), maxStrDigits).Err?
    ensures r.Err? ==> r.error == ValueError
    ensures r.Ok? ==> r.value == RenderInput(d)
  {
    if InputExceedsStrLimit(d, maxStrDigits) then Err(ValueError) else Ok(RenderInput(d))
  }

  /**
    The stored text of a one-int dict determines the int: two renderings agree only on
    equal inputs. For instance `{"n": 10}` is stored as `{'n': 10}`.
   */
  lemma RenderIntInputInjective(key: string, a: int, b: int)
    requires RenderInput([(key, IntArg(a))]) == RenderInput([(key, IntArg(b))])
    ensures a == b
  {
    var pre := "{'" + key + "': ";
    var da, db := Decimal.IntToDecimal(a), Decimal.IntToDecimal(b);
    assert RenderInput([(key, IntArg(a))]) == pre + da + "}";
    assert RenderInput([(key, IntArg(b))]) == pre + db + "}";
    assert (pre + da + "}")[|pre|..|pre| + |da|] == da;
    assert (pre + db + "}")[|pre|..|pre| + |db|] == db;
    Decimal.IntToDecimalInjective(a, b);
  }
}

=== FILE: wrappers.dfy ===
/** Optional values and results with an error, as returned by the modelled operations. */
module Wrappers {

  /** Python's `None` or a present value. */
  datatype Option<+T> = None | Some(value: T) {

    /** The value, or `default` when there is none (Python's `d.get(k, default)`). */
    function GetOr(default: T): T {
      match this
      case Some(v) => v
      case None => default
    }
  }

  /** A value, or the exception an operation raised instead of returning. */
  datatype Result<+R, +E> = Ok(value: R) | Err(error: E)
}
